=== FILE: README.md ===
# Remote Control bus endpoint — Dafny model

This project models the policy core of the Remote Control ("RC") component of
a head-unit HMI. The component sits on a JSON-RPC 2.0 message bus between the
central dispatch process and the climate and radio models. The model covers
five parts:

- the request dispatcher `onRPCRequest` and its five methods;
- the consent arbiter `consentedAppCheck`;
- the two reply encoders `sendError` and `sendRCResult`;
- the asynchronous consent answer `GetInteriorVehicleDataConsentResponse`;
- the three notification builders.

Files:

- `js.dfy` (module `Js`): the JavaScript semantics the code relies on. It has
  decoded JSON values plus `undefined`, truthiness, `== null`, loose `!=`, and
  property reads that throw a TypeError on `null`/`undefined`.
- `messages.dfy` (module `RcMessages`): requests, outbound frames, the
  collaborator calls (`Effect`), and the environment `Env`. `Env` holds
  everything the handler reads from outside: the inherited `validationCheck`,
  the global settings, the application registry, and the climate and radio
  models. Each is an uninterpreted value or function.
- `encoding.dfy` (module `RcEncoding`): reply encoders and notification builders.
- `consent.dfy` (module `RcConsent`): the consent arbiter.
- `dispatch.dfy` (module `RcDispatch`): the per-method handlers, `Handle`, and
  `Serve`. `Serve` handles a stream of frames one at a time.
- `properties.dfy` (module `RcProperties`): lemmas for the guard order and the
  reply contents of each method.

`Handle(env, req)` returns an `Outcome`, which holds three things:

- the frames sent (never more than one);
- the collaborator calls made, in order (`SetClimate`, `SetRadio`,
  `SaveRadioOptions`, `ForwardConsent`);
- the TypeError thrown, if any.

The code throws in three places:

- a `SetInteriorVehicleData` or `GetInteriorVehicleData` request without
  `params` (`IsReady`, `GetCapabilities` and `GetInteriorVehicleDataConsent`
  never read `params`);
- one of those two requests whose `appID` has no application model in the
  registry;
- a `SetInteriorVehicleData` request without `moduleData`, once its consent
  check has passed.

In every one of these, nothing has been sent and no setter has been called when
the exception is thrown.

Outbound frames are modelled as they appear after JSON serialisation: a key
whose value is `undefined` is absent. The constant `"jsonrpc": "2.0"` member is
left implicit.

Some behaviour of the code is easy to misread, and the model keeps it as written:

- `OnDeviceRankChanged` tests the device for JavaScript truthiness.
- `GetInteriorVehicleData` reads `moduleType` from the top level of `params`.
  The consent check, by contrast, looks in `moduleDescription`, then in
  `moduleData`, then at the top level.
- An unknown application throws instead of being refused.

## Model

| member | source | states |
|---|---|---|
| RcEncoding.SendError | ffw/RCRPC.js:349-367 | sends nothing for SUCCESS. For any other code it sends exactly one error reply with the given id, code, message and method |
| RcEncoding.SendRCResult | ffw/RCRPC.js:378-393 | sends a bare SUCCESS result with the given id and method when the code is SUCCESS, and nothing otherwise |
| RcEncoding.EncodersAreExclusive | ffw/RCRPC.js:349-393 | for every result code, exactly one of the two encoders sends a frame |
| RcEncoding.GetInteriorVehicleDataConsentResponse | ffw/RCRPC.js:394-406 | the late consent answer replies to the original request (same id and method) with SUCCESS, and carries `allowed` and nothing else |
| RcEncoding.OnDeviceRankChanged | ffw/RCRPC.js:413-427 | no frame for a falsy (null, absent, empty) device. Otherwise one id-less notification carrying the device and its rank |
| RcEncoding.OnRemoteControlSettings | ffw/RCRPC.js:433-447 | always carries `allowed` unless it is undefined. Carries `accessMode` exactly when `allowed` is strictly `true` and `accessMode` is not undefined |
| RcEncoding.OnInteriorVehicleData | ffw/RCRPC.js:451-471 | carries the module type unless it is undefined. Climate and radio data are each carried independently, exactly when truthy |
| RcConsent.ConsentModuleType | ffw/RCRPC.js:479-486 | the module type is taken from `moduleDescription`, else from `moduleData`, else from the top level, in that priority |
| RcConsent.RequestingDeviceName | ffw/RCRPC.js:478-489 | throws exactly when `params` is missing (a TypeError on `appID`) or the registry has no application model for `appID` (a TypeError on `deviceName`). Otherwise yields that model's `deviceName` |
| RcConsent.ConsentedAppCheck | ffw/RCRPC.js:477-498 | grants exactly when reverse functionality is enabled and either no driver device is recorded or its name equals the requester's device name. Throws exactly when the device name cannot be resolved |
| RcConsent.ConsentIgnoresModuleType | ffw/RCRPC.js:477-498 | two requests with the same `appID` get the same verdict, so the extracted module type never affects it |
| RcConsent.ForeignDeviceIsRefused | ffw/RCRPC.js:491-495 | a recorded driver device other than the requester's is refused, whatever the reverse-functionality flag |
| RcConsent.DisabledFunctionalityIsRefused | ffw/RCRPC.js:491-495 | with reverse functionality disabled, every resolvable requester is refused, whatever its device |
| RcDispatch.IsReady | ffw/RCRPC.js:133-148 | one SUCCESS reply to the request carrying `available` = the readiness flag, with no calls |
| RcDispatch.RemoteControlCapability | ffw/RCRPC.js:152-172 | the aggregate holds the merged button list and passes each capability descriptor through unchanged (absent only when undefined), with no other key |
| RcDispatch.ButtonCapabilities | ffw/RCRPC.js:158-165 | the merged list is the climate buttons followed by the radio buttons, in order and with nothing else |
| RcDispatch.GetCapabilities | ffw/RCRPC.js:149-186 | one SUCCESS reply to the request, with no calls and no exception. Its only body key is `remoteControlCapability`, which is exactly the capability object the environment describes. Its `buttonCapabilities` is the climate buttons followed by the radio buttons |
| RcDispatch.WriteModuleData | ffw/RCRPC.js:222-261 | after the guards pass, the write ends in exactly one SUCCESS reply to the request. Its `moduleData` echoes the module type (unless undefined) and has no key besides `moduleType`, `climateControlData` and `radioControlData`. A setter is called exactly for each part present in the request. Each part comes back exactly when its setter returned a truthy value, and it comes back as that value. Radio options are saved exactly when radio data was written and the radio is enabled afterwards. Each call happens at most once, in the order climate write, radio write, save |
| RcDispatch.SetInteriorVehicleData | ffw/RCRPC.js:187-263 | at most one reply, always to this request. An exception sends nothing and calls nothing. Any error reply comes with no setter call |
| RcDispatch.ReadModuleData | ffw/RCRPC.js:284-320 | the reply body carries climate data only for CLIMATE and radio data only for RADIO, each when truthy, never both, and it has no other key besides `moduleType`. It echoes the module type, and `isSubscribed` exactly when `subscribe` is not undefined |
| RcDispatch.GetInteriorVehicleData | ffw/RCRPC.js:264-324 | at most one reply, always to this request. It never calls a collaborator that changes state |
| RcDispatch.GetInteriorVehicleDataConsent | ffw/RCRPC.js:325-330 | sends nothing now and forwards the request unchanged to the consent collaborator |
| RcDispatch.Handle | ffw/RCRPC.js:129-338 | at most one frame per request, and every frame sent is a reply carrying the request's id and method. Invalid requests and unknown methods produce nothing |
| RcDispatch.Serve | ffw/RCRPC.js:129-338 | over a stream of frames handled one at a time, replies plus exceptions never outnumber the frames. Every reply answers one of the frames |
| RcProperties.ServeKeepsEveryReply | ffw/RCRPC.js:129-338 | every reply and every call a frame's handler produces reaches the stream's trace, and an exception it throws is counted |
| RcProperties.InvalidRequestIsDropped | ffw/RCRPC.js:131 | a request refused by `validationCheck` gets no reply, no call and no exception |
| RcProperties.UnknownMethodGetsNoMethodNotFound | ffw/RCRPC.js:331-335 | a valid request with an unknown method gets no error reply at all, where section 5.1 of JSON-RPC 2.0 asks for -32601 "Method not found" |
| RcProperties.IsReadyReply | ffw/RCRPC.js:133-148 | the whole outcome of `RC.IsReady`: one SUCCESS reply with the readiness flag |
| RcProperties.GetCapabilitiesReply | ffw/RCRPC.js:149-186 | the reply's `buttonCapabilities` is climate ++ radio. Both capability descriptors are passed through. The capability object has exactly the keys `buttonCapabilities` and each descriptor that is not undefined |
| RcProperties.GetCapabilitiesIgnoresConsent | ffw/RCRPC.js:149-186 | capability discovery does not depend on the driver device, the reverse-functionality flag or the registry |
| RcProperties.SetInteriorVehicleDataGuardOrder | ffw/RCRPC.js:191-220 | the guards run in order: consent (REJECTED), then radio activation (IGNORED), then frequency bounds (INVALID_DATA). Each failure sends one error and makes no setter call |
| RcProperties.RadioNotActivatedIff | ffw/RCRPC.js:199-208 | IGNORED "Radio module must be activated." is sent exactly when consent passes, radio data is present with a null or absent `radioEnable`, and the radio is off |
| RcProperties.SetInteriorVehicleDataSuccess | ffw/RCRPC.js:222-261 | on success the reply echoes the module type, and its `moduleData` has no key besides `moduleType`, `climateControlData` and `radioControlData`. Each part present in the request comes back as its setter's truthy result. Radio options are saved exactly when radio data was written and the radio is enabled afterwards, and the save comes right after the radio write. Each call happens at most once, climate write first |
| RcProperties.GetInteriorVehicleDataNeedsAppId | ffw/RCRPC.js:268-274 | a missing `appID` yields INVALID_DATA "appID parameter missing!" before, and regardless of, the consent check |
| RcProperties.GetInteriorVehicleDataRejected | ffw/RCRPC.js:276-282 | an identified but unconsented read is REJECTED with no data |
| RcProperties.GetInteriorVehicleDataSuccess | ffw/RCRPC.js:284-323 | climate data only for CLIMATE and radio data only for RADIO, never both, and `moduleData` has no key besides `moduleType`, `climateControlData` and `radioControlData`. `isSubscribed` is present exactly when `subscribe` was supplied, and equals it |
| RcProperties.GetInteriorVehicleDataFaults | ffw/RCRPC.js:268-276 | a read without `params` throws on `appID` and sends nothing. An identified read whose application has no registry model throws the consent check's TypeError and sends nothing |
| RcProperties.ConsentRequestIsForwarded | ffw/RCRPC.js:325-330 | a consent request produces no frame and one forwarding call |
| RcProperties.NoWriteWithoutConsent | ffw/RCRPC.js:187-237 | whenever a climate or radio setter is called, the request was a valid `SetInteriorVehicleData` whose consent check passed |
| RcProperties.DeviceRankRoundTrip | ffw/RCRPC.js:413-427 | for a truthy device, the device and rank read back from the one frame sent are exactly the arguments |
| RcProperties.RemoteControlSettingsRoundTrip | ffw/RCRPC.js:433-447 | the notification reads back as `allowed`, and as the access mode when `allowed` is exactly `true`, else as no access mode |
| RcProperties.AccessModeIgnoredUnlessAllowed | ffw/RCRPC.js:443-445 | unless `allowed` is exactly `true`, the notification does not depend on the access mode |
| RcProperties.NotificationMatchesRead | ffw/RCRPC.js:284-320 | for CLIMATE or RADIO, the interior-data notification built from the models' current data carries the same `moduleData` as a granted read of that module |
| RcProperties.ConsentRoundTrip | ffw/RCRPC.js:325-330 | every forwarded consent request is the original request, and the late consent answer to it replies to that request (same id and method) |
| RcProperties.DroppedFramesAreInvisible | ffw/RCRPC.js:131-146 | a stream made only of invalid or unknown-method frames produces no frame, no call and no exception |

## Left out

- Transport and registration glue is not modelled: `client`, `connect`, `disconnect`, `onRPCRegistered` with its 500 ms timer, `onRPCUnregistered`, `onRPCDisconnected`, `onRPCResult`, `onRPCError` and `onRPCNotification` (ffw/RCRPC.js:51-123). These are I/O, a timer, and calls into a base class that is not part of this model.
- Logging calls are left out because they have no effect on behaviour.
- `errorResponsePull` (ffw/RCRPC.js:47) is declared but never read or written, so it is left out.
- `validationCheck` is inherited and not part of this model. It is the uninterpreted predicate `Env.valid`.
- The climate model, the radio model (capabilities, getters, setters, `checkRadioFrequencyBoundaries`, `saveCurrentOptions`) and the application registry are uninterpreted fields of `Env`. Their internals are not part of this model.
- The asynchronous consent decision is modelled only as the `ForwardConsent` call.
- `getApplicationModel(appID)` in `GetInteriorVehicleData` (ffw/RCRPC.js:288) is a lookup whose result is unused, so it is not recorded.
- Exceptions thrown by collaborators are not modelled. Only the handler's own TypeErrors are.
- The collaborators are assumed to return well-typed values. The radio-enabled flag is a boolean: the source's `radioEnable == false` test (ffw/RCRPC.js:201) is false for an undefined flag, and the model does not track that case. The button-capability getters return arrays: `[].concat(x)` (ffw/RCRPC.js:160-165) would append a non-array `x` as one element, which `Env` rules out by typing them as sequences.
- Numbers are integers: the model has no fractions, NaN or -0.
- Loose equality between device names compares values without type coercion, and objects structurally rather than by identity.
- Property reads on strings and arrays yield `undefined`, because none of the keys read here are built-in properties.
- RcEncoding.EncodersAreExclusive: covers codes of the enumeration only. `sendError` tests with loose `!=` (ffw/RCRPC.js:351) and `sendRCResult` with strict `===` (ffw/RCRPC.js:380), so for a code loosely but not strictly equal to SUCCESS (its string form, say) neither sends; that difference is not modelled.
- RcDispatch.Serve: assumes a thrown handler aborts only its own frame and the next frame is still handled. The bus client that catches the exception is not part of this model.
- Result codes are named, not numbered. Their numeric values belong to a shared enumeration that is not part of this model.
- The JSON text encoding of frames is not modelled.
- Collaborator state is an input to each frame. How a setter's call changes the `Env` of the next frame is not modelled.
- RcDispatch.SetInteriorVehicleData: its own contract states only the reply shape and that errors call no setter. The guard order and the success contents are stated by `RcProperties.SetInteriorVehicleDataGuardOrder`, `RcProperties.RadioNotActivatedIff` and `RcProperties.SetInteriorVehicleDataSuccess`.
- RcDispatch.GetInteriorVehicleData: its own contract states only the reply shape and the absence of calls. The `appID` check, the consent refusal and the reply contents are stated by the three `RcProperties.GetInteriorVehicleData*` lemmas.

=== FILE: consent.dfy ===
/**
  The consent arbiter: may the application named in a request read or write
  module data, given the recorded driver device and the global
  reverse-functionality flag?
 */
module RcConsent {
  import opened Js
  import opened RcMessages

  /** The module type a request names, looked up in `moduleDescription`,
      then `moduleData`, then at the top level of `params`. */
  function ConsentModuleType(params: Value): (r: Value)
    requires !Nullish(params)
    ensures Truthy(Get(params, "moduleDescription")) ==>
      r == Get(Get(params, "moduleDescription"), "moduleType")
    ensures !Truthy(Get(params, "moduleDescription")) && Truthy(Get(params, "moduleData")) ==>
      r == Get(Get(params, "moduleData"), "moduleType")
    ensures !Truthy(Get(params, "moduleDescription")) && !Truthy(Get(params, "moduleData")) ==>
      r == Get(params, "moduleType")
  {
    var description := Get(params, "moduleDescription");
    var data := Get(params, "moduleData");
    if Truthy(description) then Get(description, "moduleType")
    else if Truthy(data) then Get(data, "moduleType")
    else Get(params, "moduleType")
  }

  /** The device name of the application that `params.appID` names;
      throws when the registry has no application model for it. */
  function RequestingDeviceName(env: Env, params: Value): (r: Result<Value>)
    ensures r.Fail? <==> Nullish(params) || Nullish(env.applicationModel(Get(params, "appID")))
    ensures r.Ok? ==> r.value == Get(env.applicationModel(Get(params, "appID")), "deviceName")
    ensures Nullish(params) ==> r == Fail(TypeError("appID"))
    ensures !Nullish(params) && r.Fail? ==> r == Fail(TypeError("deviceName"))
  {
    var appID :- Prop(params, "appID");
    Prop(env.applicationModel(appID), "deviceName")
  }

  /** A driver device is recorded and `deviceName` is not its name
      (ffw/RCRPC.js:491-492). */
  predicate OtherThanDriver(env: Env, deviceName: Value) {
    Truthy(env.driverDeviceInfo) && !LooseEqual(deviceName, Get(env.driverDeviceInfo, "name"))
  }

  /** The consent check. It extracts the module type as well, but its answer
      never depends on it. */
  function ConsentedAppCheck(env: Env, params: Value): (r: Result<bool>)
    ensures r.Fail? <==> RequestingDeviceName(env, params).Fail?
    ensures r.Fail? ==> r.fault == RequestingDeviceName(env, params).fault
    ensures r.Ok? ==>
      (r.value <==> env.reverseFunctionalityEnabled
                    && (!Truthy(env.driverDeviceInfo)
                        || LooseEqual(RequestingDeviceName(env, params).value,
                                      Get(env.driverDeviceInfo, "name"))))
  {
    var appID :- Prop(params, "appID");
    // The source computes the module type here and never reads it again;
    // the binding mirrors that dead computation.
    var moduleType := ConsentModuleType(params);
    var deviceName :- Prop(env.applicationModel(appID), "deviceName");
    Ok(!(OtherThanDriver(env, deviceName) || !env.reverseFunctionalityEnabled))
  }

  /** The verdict depends on the request only through `appID`: requests that
      differ only in module type (or anything else) get the same answer. */
  lemma ConsentIgnoresModuleType(env: Env, p: Value, q: Value)
    requires Nullish(p) == Nullish(q)
    requires Get(p, "appID") == Get(q, "appID")
    ensures ConsentedAppCheck(env, p) == ConsentedAppCheck(env, q)
  {
  }

  /** A recorded driver device other than the requester's is refused,
      whatever the reverse-functionality flag says. */
  lemma ForeignDeviceIsRefused(env: Env, params: Value)
    requires RequestingDeviceName(env, params).Ok?
    requires OtherThanDriver(env, RequestingDeviceName(env, params).value)
    ensures ConsentedAppCheck(env, params) == Ok(false)
  {
  }

  /** With reverse functionality disabled every application is refused,
      whether or not its device is the driver's. */
  lemma DisabledFunctionalityIsRefused(env: Env, params: Value)
    requires RequestingDeviceName(env, params).Ok?
    requires !env.reverseFunctionalityEnabled
    ensures ConsentedAppCheck(env, params) == Ok(false)
  {
  }
}

=== FILE: dispatch.dfy ===
/**
  The request dispatcher of the RC component: one inbound request in, at most
  one reply out, plus the collaborator calls made on the way.
 */
module RcDispatch {
  import opened Js
  import opened RcMessages
  import opened RcEncoding
  import opened RcConsent

  /** Nothing sent, nothing called, nothing thrown. */
  const Silent := Outcome([], [], None)

  function Emit(sent: seq<OutMsg>, effects: seq<Effect>): Outcome {
    Outcome(sent, effects, None)
  }

  function Throw(f: Fault): Outcome {
    Outcome([], [], Some(f))
  }

  /** `RC.IsReady`: reports the readiness flag. */
  function IsReady(env: Env, req: Request): (r: Outcome)
    ensures r.effects == [] && r.fault.None?
    ensures |r.sent| == 1 && RepliesTo(r.sent[0], req) && r.sent[0].Response?
    ensures r.sent[0].code == Success && r.sent[0].fields == map["available" := Bool(env.isReady)]
  {
    Emit([Response(req.id, Success, req.methodName, map["available" := Bool(env.isReady)])], [])
  }

  /** The button capabilities of both models, climate entries first. */
  function ButtonCapabilities(env: Env): (r: seq<Value>)
    ensures |r| == |env.climateButtonCapabilities| + |env.radioButtonCapabilities|
    ensures r[..|env.climateButtonCapabilities|] == env.climateButtonCapabilities
    ensures r[|env.climateButtonCapabilities|..] == env.radioButtonCapabilities
  {
    env.climateButtonCapabilities + env.radioButtonCapabilities
  }

  /** The aggregated `remoteControlCapability` structure. */
  function RemoteControlCapability(env: Env): (r: map<string, Value>)
    ensures "buttonCapabilities" in r && r["buttonCapabilities"] == Arr(ButtonCapabilities(env))
    ensures "climateControlCapabilities" in r <==> !env.climateCapabilities.Undefined?
    ensures "climateControlCapabilities" in r ==> r["climateControlCapabilities"] == env.climateCapabilities
    ensures "radioControlCapabilities" in r <==> !env.radioCapabilities.Undefined?
    ensures "radioControlCapabilities" in r ==> r["radioControlCapabilities"] == env.radioCapabilities
    ensures r.Keys <= {"climateControlCapabilities", "radioControlCapabilities", "buttonCapabilities"}
  {
    var caps := Put(map[], "climateControlCapabilities", env.climateCapabilities);
    var caps := Put(caps, "radioControlCapabilities", env.radioCapabilities);
    caps["buttonCapabilities" := Arr(ButtonCapabilities(env))]
  }

  /** `RC.GetCapabilities`: capability discovery, no consent check. */
  function GetCapabilities(env: Env, req: Request): (r: Outcome)
    ensures r.effects == [] && r.fault.None?
    ensures |r.sent| == 1 && RepliesTo(r.sent[0], req) && r.sent[0].Response?
    ensures r.sent[0].code == Success && r.sent[0].fields.Keys == {"remoteControlCapability"}
    ensures r.sent[0].fields["remoteControlCapability"] == Obj(RemoteControlCapability(env))
    ensures var caps := r.sent[0].fields["remoteControlCapability"];
      && caps.Obj? && "buttonCapabilities" in caps.props
      && caps.props["buttonCapabilities"]
         == Arr(env.climateButtonCapabilities + env.radioButtonCapabilities)
  {
    Emit([Response(req.id, Success, req.methodName,
                   map["remoteControlCapability" := Obj(RemoteControlCapability(env))])], [])
  }

  /** The radio part asks to keep the radio's enable state unspecified while
      the radio is switched off (ffw/RCRPC.js:199-201). */
  predicate RadioNotActivated(env: Env, radio: Value) {
    Truthy(radio) && Nullish(Get(radio, "radioEnable")) && !env.radioEnabled
  }

  /** The radio part names a frequency the radio model rejects
      (ffw/RCRPC.js:209-212). */
  predicate FrequencyRejected(env: Env, radio: Value) {
    Truthy(radio) && !env.checkFrequency(radio).success
  }

  /** Writes the present parts of `moduleData` and replies with what the
      models hold afterwards. */
  function WriteModuleData(env: Env, req: Request, moduleData: Value, radio: Value): (r: Outcome)
    requires !Nullish(moduleData)
    ensures r.fault.None? && |r.sent| == 1 && RepliesTo(r.sent[0], req) && r.sent[0].Response?
    ensures r.sent[0].code == Success && r.sent[0].fields.Keys == {"moduleData"}
    ensures var climate := Get(moduleData, "climateControlData");
      && r.sent[0].fields["moduleData"].Obj?
      && var out := r.sent[0].fields["moduleData"].props;
         && ("moduleType" in out <==> !Get(moduleData, "moduleType").Undefined?)
         && ("moduleType" in out ==> out["moduleType"] == Get(moduleData, "moduleType"))
         && out.Keys <= {"moduleType", "climateControlData", "radioControlData"}
         && ("climateControlData" in out <==> Truthy(climate) && Truthy(env.setClimateData(climate)))
         && ("climateControlData" in out ==> out["climateControlData"] == env.setClimateData(climate))
         && ("radioControlData" in out <==> Truthy(radio) && Truthy(env.setRadioData(radio).data))
         && ("radioControlData" in out ==> out["radioControlData"] == env.setRadioData(radio).data)
         && (SetClimate(climate) in r.effects <==> Truthy(climate))
         && (SetRadio(radio) in r.effects <==> Truthy(radio))
         && (SaveRadioOptions in r.effects <==> Truthy(radio) && env.setRadioData(radio).radioEnabled)
    ensures var climate := Get(moduleData, "climateControlData");
      && |r.effects| == (if Truthy(climate) then 1 else 0) + (if Truthy(radio) then 1 else 0)
                        + (if Truthy(radio) && env.setRadioData(radio).radioEnabled then 1 else 0)
      && (Truthy(climate) ==> r.effects[0] == SetClimate(climate))
      && (Truthy(radio) && SaveRadioOptions !in r.effects ==> r.effects[|r.effects| - 1] == SetRadio(radio))
      && (SaveRadioOptions in r.effects ==>
            r.effects[|r.effects| - 1] == SaveRadioOptions && r.effects[|r.effects| - 2] == SetRadio(radio))
  {
    var climate := Get(moduleData, "climateControlData");
    var newClimate := if Truthy(climate) then env.setClimateData(climate) else Null;
    var write := if Truthy(radio) then env.setRadioData(radio) else RadioWrite(Null, false);
    var climateCalls := if Truthy(climate) then [SetClimate(climate)] else [];
    var radioCalls :=
      if Truthy(radio) then [SetRadio(radio)] + (if write.radioEnabled then [SaveRadioOptions] else [])
      else [];
    var out := Put(map[], "moduleType", Get(moduleData, "moduleType"));
    var out := PutIfTruthy(out, "climateControlData", newClimate);
    var out := PutIfTruthy(out, "radioControlData", write.data);
    Emit([Response(req.id, Success, req.methodName, map["moduleData" := Obj(out)])],
         climateCalls + radioCalls)
  }

  /** `RC.SetInteriorVehicleData`: consent, then the radio guards, then the write. */
  function SetInteriorVehicleData(env: Env, req: Request): (r: Outcome)
    ensures |r.sent| <= 1 && forall m :: m in r.sent ==> RepliesTo(m, req)
    ensures r.fault.Some? ==> r.sent == [] && r.effects == []
    ensures ErrorSent(r) ==> r.effects == []
  {
    match ConsentedAppCheck(env, req.params)
    case Fail(f) => Throw(f)
    case Ok(consented) =>
      if !consented then
        Emit(SendError(Rejected, req.id, req.methodName, Undefined), [])
      else
        var moduleData := Get(req.params, "moduleData");
        match Prop(moduleData, "radioControlData")
        case Fail(f) => Throw(f)
        case Ok(radio) =>
          if RadioNotActivated(env, radio) then
            Emit(SendError(Ignored, req.id, req.methodName, Str(RadioNotActivatedMessage)), [])
          else if FrequencyRejected(env, radio) then
            Emit(SendError(InvalidData, req.id, req.methodName, env.checkFrequency(radio).info), [])
          else
            WriteModuleData(env, req, moduleData, radio)
  }

  /** The reply body of a granted `RC.GetInteriorVehicleData`. */
  function ReadModuleData(env: Env, params: Value): (r: map<string, Value>)
    ensures var moduleType := Get(params, "moduleType");
      var subscribe := Get(params, "subscribe");
      && "moduleData" in r && r["moduleData"].Obj?
      && var out := r["moduleData"].props;
         && ("moduleType" in out <==> !moduleType.Undefined?)
         && ("moduleType" in out ==> out["moduleType"] == moduleType)
         && ("climateControlData" in out <==> moduleType == Str("CLIMATE") && Truthy(env.climateData))
         && ("climateControlData" in out ==> out["climateControlData"] == env.climateData)
         && ("radioControlData" in out <==> moduleType == Str("RADIO") && Truthy(env.radioData))
         && ("radioControlData" in out ==> out["radioControlData"] == env.radioData)
         && !("climateControlData" in out && "radioControlData" in out)
         && out.Keys <= {"moduleType", "climateControlData", "radioControlData"}
         && ("isSubscribed" in r <==> !subscribe.Undefined?)
         && ("isSubscribed" in r ==> r["isSubscribed"] == subscribe)
         && r.Keys <= {"moduleData", "isSubscribed"}
  {
    var moduleType := Get(params, "moduleType");
    var climate := if moduleType == Str("CLIMATE") then env.climateData else Null;
    var radio := if moduleType == Str("RADIO") then env.radioData else Null;
    var out := Put(map[], "moduleType", moduleType);
    var out := PutIfTruthy(out, "radioControlData", radio);
    var out := PutIfTruthy(out, "climateControlData", climate);
    var fields := map["moduleData" := Obj(out)];
    var subscribe := Get(params, "subscribe");
    if subscribe.Undefined? then fields else fields["isSubscribed" := subscribe]
  }

  /** `RC.GetInteriorVehicleData`: `appID` presence, then consent, then the read. */
  function GetInteriorVehicleData(env: Env, req: Request): (r: Outcome)
    ensures |r.sent| <= 1 && forall m :: m in r.sent ==> RepliesTo(m, req)
    ensures r.fault.Some? ==> r.sent == [] && r.effects == []
    ensures r.effects == []
  {
    match Prop(req.params, "appID")
    case Fail(f) => Throw(f)
    case Ok(appID) =>
      if Nullish(appID) then
        Emit(SendError(InvalidData, req.id, req.methodName, Str(AppIdMissingMessage)), [])
      else
        match ConsentedAppCheck(env, req.params)
        case Fail(f) => Throw(f)
        case Ok(consented) =>
          if !consented then
            Emit(SendError(Rejected, req.id, req.methodName, Undefined), [])
          else
            Emit([Response(req.id, Success, req.methodName, ReadModuleData(env, req.params))], [])
  }

  /** `RC.GetInteriorVehicleDataConsent`: handed to the consent collaborator,
      which answers later; nothing is sent now. */
  function GetInteriorVehicleDataConsent(req: Request): (r: Outcome)
    ensures r.sent == [] && r.fault.None?
    ensures r.effects == [ForwardConsent(req)]
  {
    Emit([], [ForwardConsent(req)])
  }

  /** The request handler: invalid requests and unknown methods are dropped,
      the five known methods are routed by exact name. */
  function Handle(env: Env, req: Request): (r: Outcome)
    ensures |r.sent| <= 1
    ensures forall m :: m in r.sent ==> RepliesTo(m, req)
    ensures r.fault.Some? ==> r.sent == [] && r.effects == []
    ensures !env.valid(req) || !IsKnownMethod(req.methodName) ==> r == Silent
  {
    if !env.valid(req) then Silent
    else if req.methodName == IsReadyMethod then IsReady(env, req)
    else if req.methodName == GetCapabilitiesMethod then GetCapabilities(env, req)
    else if req.methodName == SetInteriorVehicleDataMethod then SetInteriorVehicleData(env, req)
    else if req.methodName == GetInteriorVehicleDataMethod then GetInteriorVehicleData(env, req)
    else if req.methodName == GetInteriorVehicleDataConsentMethod then GetInteriorVehicleDataConsent(req)
    else Silent
  }

  /** What the bus sees when frames arrive one after another, each handled
      to completion against the collaborator state of its turn. A thrown
      handler aborts only its own frame. */
  datatype Trace = Trace(sent: seq<OutMsg>, effects: seq<Effect>, faults: nat)

  function Serve(frames: seq<(Env, Request)>): (r: Trace)
    ensures |r.sent| + r.faults <= |frames|
    ensures forall m :: m in r.sent ==> exists i :: 0 <= i < |frames| && RepliesTo(m, frames[i].1)
  {
    if frames == [] then Trace([], [], 0)
    else
      var earlier := Serve(frames[..|frames| - 1]);
      var last := Handle(frames[|frames| - 1].0, frames[|frames| - 1].1);
      Trace(earlier.sent + last.sent, earlier.effects + last.effects,
            earlier.faults + (if last.fault.Some? then 1 else 0))
  }
}

=== FILE: encoding.dfy ===
/**
  Reply encoders and notification builders of the RC component. Each is a
  pure function from its arguments to the frames it sends (zero or one).
 */
module RcEncoding {
  import opened Js
  import opened RcMessages

  /** Error reply; a SUCCESS code sends nothing. */
  function SendError(code: ResultCode, id: Value, methodName: string, message: Value): (r: seq<OutMsg>)
    ensures r == [] <==> code == Success
    ensures |r| <= 1
    ensures forall m :: m in r ==>
      m.ErrorReply? && m.id == id && m.code == code && m.methodName == methodName && m.message == message
  {
    if code != Success then [ErrorReply(id, code, message, methodName)] else []
  }

  /** Bare success reply; any other code sends nothing. */
  function SendRCResult(code: ResultCode, id: Value, methodName: string): (r: seq<OutMsg>)
    ensures r != [] <==> code == Success
    ensures |r| <= 1
    ensures forall m :: m in r ==>
      m.Response? && m.id == id && m.code == Success && m.methodName == methodName && m.fields == map[]
  {
    if code == Success then [Response(id, code, methodName, map[])] else []
  }

  /** For every code exactly one of the two encoders sends a frame. */
  lemma EncodersAreExclusive(code: ResultCode, id: Value, methodName: string, message: Value)
    ensures |SendError(code, id, methodName, message)| + |SendRCResult(code, id, methodName)| == 1
  {
  }

  /** The asynchronous answer to a consent request, sent once the user decided. */
  function GetInteriorVehicleDataConsentResponse(request: Request, allowed: Value): (r: OutMsg)
    ensures RepliesTo(r, request)
    ensures r.Response? && r.code == Success
    ensures r.fields.Keys <= {"allowed"}
    ensures "allowed" in r.fields <==> !allowed.Undefined?
    ensures "allowed" in r.fields ==> r.fields["allowed"] == allowed
  {
    Response(request.id, Success, request.methodName, Put(map[], "allowed", allowed))
  }

  /** Device-rank change; nothing is sent for a falsy device. */
  function OnDeviceRankChanged(device: Value, rank: Value): (r: seq<OutMsg>)
    ensures r == [] <==> !Truthy(device)
    ensures |r| <= 1
    ensures forall m :: m in r ==>
      && m.Notification? && m.methodName == OnDeviceRankChangedMethod
      && "device" in m.params && m.params["device"] == device
      && ("deviceRank" in m.params <==> !rank.Undefined?)
      && ("deviceRank" in m.params ==> m.params["deviceRank"] == rank)
      && m.params.Keys <= {"device", "deviceRank"}
  {
    if Truthy(device) then
      [Notification(OnDeviceRankChangedMethod, Put(map["device" := device], "deviceRank", rank))]
    else
      []
  }

  /** Settings change; `accessMode` is carried only when `allowed` is exactly `true`. */
  function OnRemoteControlSettings(allowed: Value, accessMode: Value): (r: OutMsg)
    ensures r.Notification? && r.methodName == OnRemoteControlSettingsMethod
    ensures "allowed" in r.params <==> !allowed.Undefined?
    ensures "allowed" in r.params ==> r.params["allowed"] == allowed
    ensures "accessMode" in r.params <==> allowed == Bool(true) && !accessMode.Undefined?
    ensures "accessMode" in r.params ==> r.params["accessMode"] == accessMode
    ensures r.params.Keys <= {"allowed", "accessMode"}
  {
    var params := Put(map[], "allowed", allowed);
    Notification(OnRemoteControlSettingsMethod,
                 if allowed == Bool(true) then Put(params, "accessMode", accessMode) else params)
  }

  /** Interior-data change (`onInteriorVehicleDataNotification`); each data
      part is carried independently when truthy. */
  function OnInteriorVehicleData(moduleType: Value, climateControlData: Value, radioControlData: Value): (r: OutMsg)
    ensures r.Notification? && r.methodName == OnInteriorVehicleDataMethod
    ensures r.params.Keys == {"moduleData"} && r.params["moduleData"].Obj?
    ensures var md := r.params["moduleData"].props;
      && ("moduleType" in md <==> !moduleType.Undefined?)
      && ("moduleType" in md ==> md["moduleType"] == moduleType)
      && ("climateControlData" in md <==> Truthy(climateControlData))
      && ("climateControlData" in md ==> md["climateControlData"] == climateControlData)
      && ("radioControlData" in md <==> Truthy(radioControlData))
      && ("radioControlData" in md ==> md["radioControlData"] == radioControlData)
      && md.Keys <= {"moduleType", "climateControlData", "radioControlData"}
  {
    var md := Put(map[], "moduleType", moduleType);
    var md := PutIfTruthy(md, "climateControlData", climateControlData);
    var md := PutIfTruthy(md, "radioControlData", radioControlData);
    Notification(OnInteriorVehicleDataMethod, map["moduleData" := Obj(md)])
  }
}

=== FILE: js.dfy ===
/**
  The slice of JavaScript value semantics the Remote Control endpoint relies on:
  decoded JSON values plus `undefined`, truthiness, `== null`, loose `!=`, and
  property reads that throw a TypeError on `null` or `undefined`.
 */
module Js {

  /** A JavaScript value as seen by the bus handler after JSON decoding.
      Numbers are integers here; fractional numbers are not modelled. */
  datatype Value =
    | Undefined
    | Null
    | Bool(b: bool)
    | Num(n: int)
    | Str(s: string)
    | Arr(items: seq<Value>)
    | Obj(props: map<string, Value>)

  datatype Option<+T> = None | Some(value: T)

  /** The only exception the modelled code can raise on its own:
      reading `property` of `null` or `undefined`. */
  datatype Fault = TypeError(property: string)

  /** A computation that either yields a value or throws. */
  datatype Result<+T> = Ok(value: T) | Fail(fault: Fault) {
    predicate IsFailure() {
      Fail?
    }

    function PropagateFailure<U>(): Result<U>
      requires Fail?
    {
      Fail(fault)
    }

    function Extract(): T
      requires Ok?
    {
      value
    }
  }

  /** `v == null` in JavaScript: true for both `null` and `undefined`. */
  predicate Nullish(v: Value) {
    v.Undefined? || v.Null?
  }

  /** JavaScript truthiness (`if (v)`); NaN and -0 are not modelled. */
  predicate Truthy(v: Value) {
    match v
    case Undefined | Null => false
    case Bool(b) => b
    case Num(n) => n != 0
    case Str(s) => s != ""
    case Arr(_) | Obj(_) => true
  }

  /** `a == b` in JavaScript for the values compared here: `null` and
      `undefined` equal each other and nothing else; other values are
      compared without type coercion and objects structurally. */
  predicate LooseEqual(a: Value, b: Value) {
    if Nullish(a) || Nullish(b) then Nullish(a) && Nullish(b) else a == b
  }

  /** `v.key` on a value already known not to be null or undefined:
      an own property of an object, `undefined` for anything else. */
  function Get(v: Value, key: string): Value {
    if v.Obj? && key in v.props then v.props[key] else Undefined
  }

  /** `v.key` with JavaScript's TypeError on `null` and `undefined`. */
  function Prop(v: Value, key: string): (r: Result<Value>)
    ensures r.Fail? <==> Nullish(v)
    ensures r.Fail? ==> r.fault == TypeError(key)
    ensures r.Ok? ==> r.value == Get(v, key)
  {
    if Nullish(v) then Fail(TypeError(key)) else Ok(Get(v, key))
  }

  /** Adds `key: v` to an outbound object; JSON serialisation drops a key
      whose value is `undefined`, so such a key is left out. */
  function Put(m: map<string, Value>, key: string, v: Value): map<string, Value> {
    if v.Undefined? then m else m[key := v]
  }

  /** Adds `key: v` only when `v` is truthy, as in `if (v) { o.key = v; }`. */
  function PutIfTruthy(m: map<string, Value>, key: string, v: Value): map<string, Value> {
    if Truthy(v) then m[key := v] else m
  }
}

=== FILE: messages.dfy ===
/**
  Requests, outbound frames, collaborator calls and the environment of the
  Remote Control ("RC") bus component.
 */
module RcMessages {
  import opened Js

  /** The shared result-code enumeration; the four codes this component
      produces are named, every other member is `OtherCode`. */
  datatype ResultCode = Success | Rejected | Ignored | InvalidData | OtherCode(name: string)

  const IsReadyMethod := "RC.IsReady"
  const GetCapabilitiesMethod := "RC.GetCapabilities"
  const SetInteriorVehicleDataMethod := "RC.SetInteriorVehicleData"
  const GetInteriorVehicleDataMethod := "RC.GetInteriorVehicleData"
  const GetInteriorVehicleDataConsentMethod := "RC.GetInteriorVehicleDataConsent"

  const OnDeviceRankChangedMethod := "RC.OnDeviceRankChanged"
  const OnRemoteControlSettingsMethod := "RC.OnRemoteControlSettings"
  const OnInteriorVehicleDataMethod := "RC.OnInteriorVehicleData"

  const RadioNotActivatedMessage := "Radio module must be activated."
  const AppIdMissingMessage := "appID parameter missing!"

  /** The five request methods the dispatcher routes. */
  predicate IsKnownMethod(m: string) {
    m in {IsReadyMethod, GetCapabilitiesMethod, SetInteriorVehicleDataMethod,
          GetInteriorVehicleDataMethod, GetInteriorVehicleDataConsentMethod}
  }

  /** An inbound JSON-RPC 2.0 request. */
  datatype Request = Request(id: Value, methodName: string, params: Value)

  /** An outbound JSON-RPC 2.0 frame; the constant `"jsonrpc": "2.0"` member
      is implicit. `fields` holds the method-specific members of `result`;
      keys whose value would serialise as `undefined` are absent. */
  datatype OutMsg =
    | Response(id: Value, code: ResultCode, methodName: string, fields: map<string, Value>)
    | ErrorReply(id: Value, code: ResultCode, message: Value, methodName: string)
    | Notification(methodName: string, params: map<string, Value>)

  /** A call into a collaborator that changes something outside the component. */
  datatype Effect =
    | SetClimate(climateData: Value)
    | SetRadio(radioData: Value)
    | SaveRadioOptions
    | ForwardConsent(request: Request)

  /** What the radio model's frequency-boundary validator answers. */
  datatype FrequencyCheck = FrequencyCheck(success: bool, info: Value)

  /** What writing radio data yields: the data the radio model returns and
      whether the radio is enabled afterwards. */
  datatype RadioWrite = RadioWrite(data: Value, radioEnabled: bool)

  /** Everything the handler reads from outside itself: the inherited request
      validator, the global settings, the application registry and the
      climate and radio models. */
  datatype Env = Env(
    valid: Request -> bool,
    isReady: bool,
    driverDeviceInfo: Value,
    reverseFunctionalityEnabled: bool,
    applicationModel: Value -> Value,
    climateCapabilities: Value,
    climateButtonCapabilities: seq<Value>,
    radioCapabilities: Value,
    radioButtonCapabilities: seq<Value>,
    climateData: Value,
    radioData: Value,
    radioEnabled: bool,
    checkFrequency: Value -> FrequencyCheck,
    setClimateData: Value -> Value,
    setRadioData: Value -> RadioWrite)

  /** The result of handling one inbound request: the frames sent, the
      collaborator calls made, and the TypeError thrown, if any. */
  datatype Outcome = Outcome(sent: seq<OutMsg>, effects: seq<Effect>, fault: Option<Fault>)

  /** `m` is a reply (result or error) to `req`: same id, same method. */
  predicate RepliesTo(m: OutMsg, req: Request) {
    (m.Response? || m.ErrorReply?) && m.id == req.id && m.methodName == req.methodName
  }

  /** Some frame in `o` is an error reply. */
  predicate ErrorSent(o: Outcome) {
    exists m :: m in o.sent && m.ErrorReply?
  }
}

=== FILE: properties.dfy ===
/**
  Properties of the RC request dispatcher, one lemma per promise: the guard
  order of each method, what each reply carries, and what is dropped.
 */
module RcProperties {
  import opened Js
  import opened RcMessages
  import opened RcEncoding
  import opened RcConsent
  import opened RcDispatch

  /** A request the inherited validator refuses gets no reply and causes no call. */
  lemma InvalidRequestIsDropped(env: Env, req: Request)
    requires !env.valid(req)
    ensures Handle(env, req) == Outcome([], [], None)
  {
  }

  /** A valid request naming none of the five methods gets no reply at all.
      Section 5.1 of the JSON-RPC 2.0 specification asks for a -32601
      "Method not found" error object here; the handler sends no error. */
  lemma UnknownMethodGetsNoMethodNotFound(env: Env, req: Request)
    requires env.valid(req) && !IsKnownMethod(req.methodName)
    ensures !ErrorSent(Handle(env, req))
    ensures Handle(env, req) == Outcome([], [], None)
  {
  }

  /** `RC.IsReady` answers SUCCESS with the readiness flag. */
  lemma IsReadyReply(env: Env, req: Request)
    requires env.valid(req) && req.methodName == IsReadyMethod
    ensures Handle(env, req) ==
      Outcome([Response(req.id, Success, IsReadyMethod, map["available" := Bool(env.isReady)])], [], None)
  {
  }

  /** `RC.GetCapabilities` lists the climate buttons, then the radio buttons,
      and carries both capability descriptors. */
  lemma GetCapabilitiesReply(env: Env, req: Request)
    requires env.valid(req) && req.methodName == GetCapabilitiesMethod
    ensures var r := Handle(env, req);
      && r.effects == [] && r.fault.None? && |r.sent| == 1
      && r.sent[0].Response? && r.sent[0].code == Success
      && "remoteControlCapability" in r.sent[0].fields
      && r.sent[0].fields["remoteControlCapability"].Obj?
      && var caps := r.sent[0].fields["remoteControlCapability"].props;
         && "buttonCapabilities" in caps && caps["buttonCapabilities"].Arr?
         && caps["buttonCapabilities"].items
            == env.climateButtonCapabilities + env.radioButtonCapabilities
         && ("climateControlCapabilities" in caps <==> !env.climateCapabilities.Undefined?)
         && ("climateControlCapabilities" in caps ==>
               caps["climateControlCapabilities"] == env.climateCapabilities)
         && ("radioControlCapabilities" in caps <==> !env.radioCapabilities.Undefined?)
         && ("radioControlCapabilities" in caps ==>
               caps["radioControlCapabilities"] == env.radioCapabilities)
         && caps.Keys == {"climateControlCapabilities", "radioControlCapabilities", "buttonCapabilities"}
                         - (if env.climateCapabilities.Undefined? then {"climateControlCapabilities"} else {})
                         - (if env.radioCapabilities.Undefined? then {"radioControlCapabilities"} else {})
  {
  }

  /** Capability discovery asks for no consent: the driver device, the
      reverse-functionality flag and the application registry do not matter. */
  lemma GetCapabilitiesIgnoresConsent(env: Env, req: Request, driver: Value, enabled: bool, apps: Value -> Value)
    requires req.methodName == GetCapabilitiesMethod
    ensures Handle(env, req) ==
      Handle(env.(driverDeviceInfo := driver, reverseFunctionalityEnabled := enabled, applicationModel := apps), req)
  {
  }

  /** `RC.SetInteriorVehicleData` runs its guards in order: consent (REJECTED),
      then the radio activation check (IGNORED), then the frequency bounds
      (INVALID_DATA). A failed guard sends one error and calls no setter. */
  lemma SetInteriorVehicleDataGuardOrder(env: Env, req: Request)
    requires env.valid(req) && req.methodName == SetInteriorVehicleDataMethod
    ensures var r := Handle(env, req);
      var consent := ConsentedAppCheck(env, req.params);
      var moduleData := Get(req.params, "moduleData");
      var radio := Get(moduleData, "radioControlData");
      && (consent.Fail? ==> r == Outcome([], [], Some(consent.fault)))
      && (consent == Ok(false) ==>
            r == Outcome([ErrorReply(req.id, Rejected, Undefined, req.methodName)], [], None))
      && (consent == Ok(true) && Nullish(moduleData) ==>
            r == Outcome([], [], Some(TypeError("radioControlData"))))
      && (consent == Ok(true) && !Nullish(moduleData) && RadioNotActivated(env, radio) ==>
            r == Outcome([ErrorReply(req.id, Ignored, Str(RadioNotActivatedMessage), req.methodName)], [], None))
      && (consent == Ok(true) && !Nullish(moduleData) && !RadioNotActivated(env, radio)
          && FrequencyRejected(env, radio) ==>
            r == Outcome([ErrorReply(req.id, InvalidData, env.checkFrequency(radio).info, req.methodName)], [], None))
      && (ErrorSent(r) ==> r.effects == [])
  {
  }

  /** The IGNORED "Radio module must be activated." error is sent exactly when
      consent is granted, radio data is present with a null or absent
      `radioEnable`, and the radio is currently off. */
  lemma RadioNotActivatedIff(env: Env, req: Request)
    requires env.valid(req) && req.methodName == SetInteriorVehicleDataMethod
    ensures var moduleData := Get(req.params, "moduleData");
      var radio := Get(moduleData, "radioControlData");
      Handle(env, req).sent == [ErrorReply(req.id, Ignored, Str(RadioNotActivatedMessage), req.methodName)]
      <==>
      && ConsentedAppCheck(env, req.params) == Ok(true)
      && !Nullish(moduleData)
      && Truthy(radio)
      && Nullish(Get(radio, "radioEnable"))
      && !env.radioEnabled
  {
  }

  /** A successful `RC.SetInteriorVehicleData` echoes the module type and, for
      each part present in the request, what its setter returned (when
      truthy); the radio options are saved only after a radio write that
      leaves the radio enabled. */
  lemma SetInteriorVehicleDataSuccess(env: Env, req: Request)
    requires env.valid(req) && req.methodName == SetInteriorVehicleDataMethod
    requires ConsentedAppCheck(env, req.params) == Ok(true)
    requires !Nullish(Get(req.params, "moduleData"))
    requires !RadioNotActivated(env, Get(Get(req.params, "moduleData"), "radioControlData"))
    requires !FrequencyRejected(env, Get(Get(req.params, "moduleData"), "radioControlData"))
    ensures var r := Handle(env, req);
      var moduleData := Get(req.params, "moduleData");
      var climate := Get(moduleData, "climateControlData");
      var radio := Get(moduleData, "radioControlData");
      && r.fault.None? && |r.sent| == 1 && r.sent[0].Response? && r.sent[0].code == Success
      && r.sent[0].fields.Keys == {"moduleData"} && r.sent[0].fields["moduleData"].Obj?
      && var out := r.sent[0].fields["moduleData"].props;
         && ("moduleType" in out <==> !Get(moduleData, "moduleType").Undefined?)
         && ("moduleType" in out ==> out["moduleType"] == Get(moduleData, "moduleType"))
         && out.Keys <= {"moduleType", "climateControlData", "radioControlData"}
         && ("climateControlData" in out <==> Truthy(climate) && Truthy(env.setClimateData(climate)))
         && ("climateControlData" in out ==> out["climateControlData"] == env.setClimateData(climate))
         && ("radioControlData" in out <==> Truthy(radio) && Truthy(env.setRadioData(radio).data))
         && ("radioControlData" in out ==> out["radioControlData"] == env.setRadioData(radio).data)
         && (SetClimate(climate) in r.effects <==> Truthy(climate))
         && (SetRadio(radio) in r.effects <==> Truthy(radio))
         && (SaveRadioOptions in r.effects <==> Truthy(radio) && env.setRadioData(radio).radioEnabled)
         && (forall e :: e in r.effects ==>
               e == SetClimate(climate) || e == SetRadio(radio) || e == SaveRadioOptions)
         && |r.effects| == (if Truthy(climate) then 1 else 0) + (if Truthy(radio) then 1 else 0)
                           + (if Truthy(radio) && env.setRadioData(radio).radioEnabled then 1 else 0)
         && (Truthy(climate) ==> r.effects[0] == SetClimate(climate))
         && (Truthy(radio) && SaveRadioOptions !in r.effects ==> r.effects[|r.effects| - 1] == SetRadio(radio))
         && (SaveRadioOptions in r.effects ==>
               r.effects[|r.effects| - 1] == SaveRadioOptions && r.effects[|r.effects| - 2] == SetRadio(radio))
  {
  }

  /** Without an `appID` the read is refused with INVALID_DATA before the
      consent check runs, so the registry and the settings do not matter. */
  lemma GetInteriorVehicleDataNeedsAppId(env: Env, req: Request)
    requires env.valid(req) && req.methodName == GetInteriorVehicleDataMethod
    requires !Nullish(req.params) && Nullish(Get(req.params, "appID"))
    ensures Handle(env, req) ==
      Outcome([ErrorReply(req.id, InvalidData, Str(AppIdMissingMessage), GetInteriorVehicleDataMethod)], [], None)
  {
  }

  /** An identified but unconsented read is REJECTED and reads nothing. */
  lemma GetInteriorVehicleDataRejected(env: Env, req: Request)
    requires env.valid(req) && req.methodName == GetInteriorVehicleDataMethod
    requires !Nullish(Get(req.params, "appID"))
    requires ConsentedAppCheck(env, req.params) == Ok(false)
    ensures Handle(env, req) ==
      Outcome([ErrorReply(req.id, Rejected, Undefined, GetInteriorVehicleDataMethod)], [], None)
  {
  }

  /** A granted read returns climate data only for CLIMATE and radio data only
      for RADIO, never both, and echoes `subscribe` as `isSubscribed`
      exactly when it was supplied. */
  lemma GetInteriorVehicleDataSuccess(env: Env, req: Request)
    requires env.valid(req) && req.methodName == GetInteriorVehicleDataMethod
    requires !Nullish(Get(req.params, "appID"))
    requires ConsentedAppCheck(env, req.params) == Ok(true)
    ensures var r := Handle(env, req);
      var moduleType := Get(req.params, "moduleType");
      var subscribe := Get(req.params, "subscribe");
      && r.fault.None? && r.effects == [] && |r.sent| == 1
      && r.sent[0].Response? && r.sent[0].code == Success
      && "moduleData" in r.sent[0].fields && r.sent[0].fields["moduleData"].Obj?
      && var out := r.sent[0].fields["moduleData"].props;
         && ("moduleType" in out <==> !moduleType.Undefined?)
         && ("moduleType" in out ==> out["moduleType"] == moduleType)
         && ("climateControlData" in out <==> moduleType == Str("CLIMATE") && Truthy(env.climateData))
         && ("climateControlData" in out ==> out["climateControlData"] == env.climateData)
         && ("radioControlData" in out <==> moduleType == Str("RADIO") && Truthy(env.radioData))
         && ("radioControlData" in out ==> out["radioControlData"] == env.radioData)
         && !("climateControlData" in out && "radioControlData" in out)
         && out.Keys <= {"moduleType", "climateControlData", "radioControlData"}
         && ("isSubscribed" in r.sent[0].fields <==> !subscribe.Undefined?)
         && ("isSubscribed" in r.sent[0].fields ==> r.sent[0].fields["isSubscribed"] == subscribe)
         && r.sent[0].fields.Keys <= {"moduleData", "isSubscribed"}
  {
  }

  /** The read throws, sending nothing and calling nothing, when `params` is
      missing (reading `appID`) and, for an identified request, when the
      consent check cannot resolve the requester's application model. */
  lemma GetInteriorVehicleDataFaults(env: Env, req: Request)
    requires env.valid(req) && req.methodName == GetInteriorVehicleDataMethod
    ensures Nullish(req.params) ==> Handle(env, req) == Outcome([], [], Some(TypeError("appID")))
    ensures !Nullish(req.params) && !Nullish(Get(req.params, "appID"))
            && ConsentedAppCheck(env, req.params).Fail? ==>
      Handle(env, req) == Outcome([], [], Some(ConsentedAppCheck(env, req.params).fault))
  {
  }

  /** A consent request is forwarded untouched and answered later, not now. */
  lemma ConsentRequestIsForwarded(env: Env, req: Request)
    requires env.valid(req) && req.methodName == GetInteriorVehicleDataConsentMethod
    ensures Handle(env, req) == Outcome([], [ForwardConsent(req)], None)
  {
  }

  /** Module data is never written without consent: whenever a setter is
      called, the consent check passed. */
  lemma NoWriteWithoutConsent(env: Env, req: Request)
    requires exists e :: e in Handle(env, req).effects && (e.SetClimate? || e.SetRadio?)
    ensures env.valid(req) && req.methodName == SetInteriorVehicleDataMethod
    ensures ConsentedAppCheck(env, req.params) == Ok(true)
  {
  }

  /** Across a stream of frames, a frame that is invalid or names an unknown
      method contributes nothing to what the bus sees. */
  lemma {:induction false} DroppedFramesAreInvisible(frames: seq<(Env, Request)>)
    requires forall i :: 0 <= i < |frames| ==>
      !frames[i].0.valid(frames[i].1) || !IsKnownMethod(frames[i].1.methodName)
    ensures Serve(frames) == Trace([], [], 0)
  {
    if frames != [] {
      DroppedFramesAreInvisible(frames[..|frames| - 1]);
    }
  }

  /** Nothing a frame produces is lost: its replies and its calls reach the
      trace, and its exception is counted. */
  lemma {:induction false} ServeKeepsEveryReply(frames: seq<(Env, Request)>, i: nat)
    requires i < |frames|
    ensures forall m :: m in Handle(frames[i].0, frames[i].1).sent ==> m in Serve(frames).sent
    ensures forall e :: e in Handle(frames[i].0, frames[i].1).effects ==> e in Serve(frames).effects
    ensures Handle(frames[i].0, frames[i].1).fault.Some? ==> Serve(frames).faults > 0
  {
    if i < |frames| - 1 {
      var pre := frames[..|frames| - 1];
      assert frames[i] == pre[i];
      ServeKeepsEveryReply(pre, i);
    }
  }

  /** What a receiver reads back from a notification's `params`: a key that
      is absent reads as `undefined`. */
  function ParamOf(m: OutMsg, key: string): Value
    requires m.Notification?
  {
    if key in m.params then m.params[key] else Undefined
  }

  /** The device and rank can be read back from the frame `OnDeviceRankChanged`
      sends, so distinct arguments give distinct frames. */
  lemma DeviceRankRoundTrip(device: Value, rank: Value)
    requires Truthy(device)
    ensures var sent := OnDeviceRankChanged(device, rank);
      |sent| == 1 && ParamOf(sent[0], "device") == device && ParamOf(sent[0], "deviceRank") == rank
  {
  }

  /** The settings notification reads back as the flag it was built from and,
      only when that flag is exactly `true`, the access mode. */
  lemma RemoteControlSettingsRoundTrip(allowed: Value, accessMode: Value)
    ensures var m := OnRemoteControlSettings(allowed, accessMode);
      && ParamOf(m, "allowed") == allowed
      && ParamOf(m, "accessMode") == (if allowed == Bool(true) then accessMode else Undefined)
  {
  }

  /** Unless `allowed` is exactly `true`, the access mode does not influence
      the settings notification at all. */
  lemma AccessModeIgnoredUnlessAllowed(allowed: Value, a: Value, b: Value)
    requires allowed != Bool(true)
    ensures OnRemoteControlSettings(allowed, a) == OnRemoteControlSettings(allowed, b)
  {
  }

  /** For a CLIMATE or RADIO module, the interior-data notification built from
      the models' current data carries the same `moduleData` as a granted
      `RC.GetInteriorVehicleData` read of that module. */
  lemma NotificationMatchesRead(env: Env, params: Value)
    requires Get(params, "moduleType") in {Str("CLIMATE"), Str("RADIO")}
    ensures var t := Get(params, "moduleType");
      var climate := if t == Str("CLIMATE") then env.climateData else Null;
      var radio := if t == Str("RADIO") then env.radioData else Null;
      OnInteriorVehicleData(t, climate, radio).params["moduleData"] == ReadModuleData(env, params)["moduleData"]
  {
  }

  /** The late consent answer to any request `Handle` forwarded is a reply to
      the original request: same id, same method. */
  lemma ConsentRoundTrip(env: Env, req: Request, allowed: Value)
    ensures forall e :: e in Handle(env, req).effects && e.ForwardConsent? ==>
      e.request == req && RepliesTo(GetInteriorVehicleDataConsentResponse(e.request, allowed), req)
  {
  }
}
